=== FILE: README.md ===
# Account authentication of the marketplace server, in Dafny

This project models the marketplace server's account-authentication
controller. It has five handlers:

- password signup
- password login
- wallet nonce request
- wallet verify (login)
- wallet signup

It also models the account record they share, and the router checks that run before three of the handlers.

The account store is a `seq<Account>` in insertion order, so Mongo's
`findOne` becomes "the first record that matches" (`UserModel.FindFirst`).
Each handler is a pure function:

    (store, request, primitives, fresh values) -> Step(store', response)

The response is one of:

- `Created(role)`, status 201
- `SessionIssued(token)`, status 200
- `NonceIssued(nonce)`, status 200
- `Failed(kind)`, status 400, 401, 404 or 500

The failure kind tells apart replies that share a status code. For example,
login's "Invalid credentials" and "Invalid credentials for the selected role"
are both 401, but they get different kinds.

A document save is `UserModel.Insert` or `UserModel.Update`. Either can fail,
and the controller's catch block then answers 500. A save fails in these cases:

- a required string (`username`, `email`) is empty;
- the `role` string is outside the `buyer`/`seller` enumeration;
- the document would collide on the unique `_id`, `email` or `walletAddress`
  index.

`UserModel.Valid` is the store invariant. It holds that:

- required fields are present;
- the indexes are unique;
- every record that holds a wallet address also holds a nonce;
- every nonce is 64 lower-case hex digits.

Every handler preserves it.

The externals are fields of `Auth.Primitives`:

- `bcrypt.hash` / `bcrypt.compare`;
- `verifyMessage`, which recovers an EIP-191 personal-message signer and
  returns `None` when it throws;
- the `isEmail` syntax check.

The 32 random bytes of `crypto.randomBytes`, the new document id and the clock
are parameters. Nonces are the lower-case hex encoding of those bytes
(`Hex.Encode`). A token is `{userId, role, issuedAt, expiresAt = issuedAt + 3600}`.

Where the code behaves in ways a reader may not expect, the model follows the code:

- A malformed signature or a missing nonce makes `verifyMessage` throw. The
  controller's catch block turns that into 500, not into an invalid-signature
  reply.
- The schema makes `email` unique across ALL records, while the controllers
  treat (email, role) as the identity. A password signup for the second role
  of an email therefore passes the duplicate check and then fails in the save,
  with 500 (`AuthProperties.SecondRoleSignupFails`).
- Every placeholder gets the email `temp@temp.com`. So while one placeholder
  exists, a nonce request for a second new address fails with 500
  (`AuthProperties.SecondPlaceholderBlocked`).
- Wallet signup rewrites whatever record holds the address. A completed
  buyer registration can therefore be turned into a seller registration
  (`AuthProperties.SignupWalletReassignsRole`).
- Wallet login does not tell placeholders apart. A request naming a
  placeholder's address, the email `temp@temp.com` and the role `buyer`,
  signed over its nonce, logs in to the unregistered record
  (`AuthProperties.VerifyWalletAcceptsPlaceholder`).
- A wallet signup under the username `temp` leaves the record looking like a
  placeholder, so the duplicate check never sees it
  (`AuthProperties.TempUsernameEvadesDuplicateCheck`).
- The controller writes and reads `password`, but the schema declares no such
  path. The model carries the field as the controller uses it. A comment on
  `UserModel.Account` records the difference.

## Model

| member | source | states |
|---|---|---|
| `Auth.Signup` | server/controllers/auth.js:9-49 | Failed validation gives 400 before any lookup, with the store unchanged. An existing (role, email) gives 400 with the store unchanged. 201 happens exactly when the input is valid, (role, email) is new, the role is in the enum, the email is free in every role and the id is fresh. The reply then holds the requested role, and exactly one record is appended with the username, email, role and `hash(password)`. No token is issued. The only failures are invalid input, the duplicate and 500, so a role outside the enum or an index clash in the save gives 500. Every failure leaves the store as it was, and the store invariant is preserved. |
| `Auth.Login` | server/controllers/auth.js:51-90 | The store never changes. Failed validation gives 400. An unknown email gives 401. The only failures are invalid input, the two 401 replies and 500, and status 401 is exactly those two replies. In a valid store: a wrong password gives 401 "Invalid credentials" whatever role was asked for; a matching password with a different non-empty requested role gives the role 401, and that reply happens only after the password matched; a record found by email that has no password (a wallet account) gives 500, because the hash comparison throws; and a token is issued exactly when some record has the email, the password matches and any given role equals the stored one. A token always carries that record's id and STORED role, with a one-hour expiry. |
| `Auth.GetNonce` | server/controllers/auth.js:92-116 | The reply nonce is the hex of the 32 random bytes: 64 lower-case hex digits, equal to the nonce now stored for the address. For a new address it succeeds exactly when the placeholder email and the id are free. It then appends one placeholder with username `temp`, email `temp@temp.com`, the address, the nonce and the default role. In a valid store, for a known address, only that record's nonce changes. A failure is a 500 that leaves the store unchanged. |
| `Auth.VerifyWallet` | server/controllers/auth.js:118-155 | It replies 404 exactly when no record has that exact (address, email, role). In a valid store, for the matching record, a signer recovered from the stored nonce that differs from the address, ignoring case, gives 401, and a recovery that throws gives 500. In any store, a 401 happens only in that case. Failures leave the store unchanged, so the nonce is not rotated. On success only the matched record's nonce is replaced, and the token carries that record's id and role. With a valid store, a matching record and signature always succeed. |
| `Auth.SignupWallet` | server/controllers/auth.js:157-219 | Failed validation gives 400 before any lookup. After validation passes, no record for the address gives 404. In a valid store, after validation, for the record found by address a mismatching signer gives 401 and a throwing recovery gives 500. In any store, a 401 happens only in that case. The duplicate 400 is reached only after the signature matched, and only when a non-placeholder record has the same role and the same email or address. On success the record found by address is rewritten in place: same id, same length store, new username, email and role, and a fresh nonce. The token carries that id and the requested role. Failures leave the store unchanged, and the store invariant is preserved. The only failures are invalid input, the missing nonce record, the 401, the duplicate 400 and 500, so a role outside the enum or an email-index clash in the save gives 500. |
| `Auth.Register` | server/controllers/auth.js:179-214 | After the signature check, the reply is the duplicate 400 exactly when some non-placeholder record has the requested role and the same email or address. Otherwise it is 500 (role outside the enum, or a save failure) or a session. A session rewrites record `i` in place with the new username, email, role and fresh nonce, and issues a token for its id and the requested role. In a valid store, when the found record holds an address, the role is valid, the fields are non-empty, no competing registration exists and no other record holds the email, the reply is always a session. Failures leave the store unchanged. |
| `UserModel.FindFirst` | server/controllers/auth.js:98 | A lookup returns the first record in insertion order that satisfies the filter. It returns nothing exactly when no record does. |
| `UserModel.Insert` | server/models/User.js:5-11 | Saving a new document succeeds exactly when username and email are non-empty and it collides with no stored record on id, email or a present wallet address. The document is appended, and the store invariant is kept when the new document also meets the nonce rule. |
| `UserModel.Update` | server/models/User.js:7-8 | Re-saving a loaded document replaces it in place. When no other record shares its id, it succeeds exactly when the required strings are non-empty and no other record shares its email or present wallet address. The store invariant is kept when the saved document also meets the nonce rule. |
| `UserModel.ParseRoleIff` | server/models/User.js:10 | The role enumeration accepts exactly the strings `buyer` and `seller`, and maps each back to its name. |
| `AuthRoutes.SignupErrors` | server/routers/authRoutes.js:10-13 | The signup checks flag the username exactly when it is empty, the email exactly when `isEmail` rejects it, and the password exactly when it is shorter than 6. |
| `AuthRoutes.LoginErrors` | server/routers/authRoutes.js:21-23 | The login checks flag the email and the password under the same rules as signup, and never a username. |
| `AuthRoutes.WalletSignupErrors` | server/routers/authRoutes.js:31-33 | The wallet-signup checks flag username and email as for signup, and never a password. |
| `AuthRoutes.SignupInputAdmitsLogin` | server/routers/authRoutes.js:10-23 | Input that passes the signup checks passes the login checks for the same email and password. |
| `Hex.Encode` | server/controllers/auth.js:95 | Hex encoding writes two lower-case hex digits per byte. |
| `Hex.DecodeEncode` | server/controllers/auth.js:95 | Decoding an encoded byte string gives back the bytes. |
| `Hex.EncodeInjective` | server/controllers/auth.js:140 | Different random bytes give different nonces. |
| `Ascii.EqualIgnoringCaseIff` | server/controllers/auth.js:135 | The lower-cased signer equals the lower-cased address exactly when the two strings have the same length and agree letter by letter up to ASCII case. |
| `Auth.CheckSignature` | server/controllers/auth.js:134-135 | Signer recovery throws exactly when the record has no nonce or the signature cannot be recovered. The check matches exactly when the recovered signer has the address's length and agrees with it letter by letter up to ASCII case. |
| `Auth.StatusOf` | server/controllers/auth.js:15-217 | Every error reply is 400, 401, 404 or 500. 500 is exactly the caught exception; 404 exactly an unknown wallet account or a missing nonce record; 400 exactly invalid input or a duplicate registration. |
| `Session.Issue` | server/controllers/auth.js:80-82 | A token names the given account id and role and is live for exactly the 3600 seconds following its issue time. |
| `Ascii.Lower` | server/controllers/auth.js:135 | Lower-casing keeps the length, maps each character through ASCII lower-casing, and leaves no upper-case ASCII letter. |
| `AuthProperties.VerifyWalletAccepts` | server/controllers/auth.js:123-150 | In a valid store, a record holding the claimed address, email and role whose nonce the signature matches gets the token, with its id and stored role. |
| `AuthProperties.SignupWalletThenVerify` | server/controllers/auth.js:92-214 | After a wallet signup, requesting a fresh nonce and signing it logs in with the signup's email and role, and the token carries the signup token's id and role. |
| `AuthProperties.SignupThenLogin` | server/controllers/auth.js:24-85 | Assume a valid store, and that bcrypt accepts a password against its own hash. After a successful signup, a login with the same email, password and role issues a token for the new record's id and role. |
| `AuthProperties.SignupTwiceRejected` | server/controllers/auth.js:24-27 | Repeating a successful signup is rejected as a duplicate, with the store unchanged. |
| `AuthProperties.SecondRoleSignupFails` | server/models/User.js:7 | When an email is already stored under the other role, signing up for a valid role passes the duplicate check but fails in the save with 500. |
| `AuthProperties.SecondPlaceholderBlocked` | server/controllers/auth.js:99-109 | While any record holds the email `temp@temp.com`, a nonce request for an unknown address fails with 500 and changes nothing. |
| `AuthProperties.NonceThenSignupWallet` | server/controllers/auth.js:98-214 | Take a new address with a free email. Request a nonce, sign that nonce with the wallet, then sign up. The signup succeeds with the placeholder's id and the requested role, and rewrites the placeholder in place without adding a record. |
| `AuthProperties.SignupWalletRejectsCompeting` | server/controllers/auth.js:167-197 | Suppose the record found by address has a matching signature and a competing registration exists. Then wallet signup answers 400 "already registered" and changes nothing. |
| `AuthProperties.SignupWalletPromotes` | server/controllers/auth.js:199-205 | After a successful wallet signup, the new store is valid. It holds a record with the address, the requested username, email and role, and the fresh nonce. |
| `AuthProperties.SignupWalletTwiceRejected` | server/controllers/auth.js:180-197 | After a wallet signup under a real username, the same signup, signed over the rotated nonce, is rejected as "already registered". |
| `AuthProperties.TempUsernameEvadesDuplicateCheck` | server/controllers/auth.js:182 | After a wallet signup under the username `temp`, the same signup, signed over the rotated nonce, succeeds again. |
| `AuthProperties.SignupWalletReassignsRole` | server/controllers/auth.js:168-214 | Take a completed buyer registration, a matching signature and a new email. A wallet signup as seller rewrites that same record, keeping its id and address, into a seller. |
| `AuthProperties.VerifyRotatesNonce` | server/controllers/auth.js:139-141 | After a successful wallet login, the record's nonce differs from the previous one whenever the random bytes differ. No other field and no other record changes. |
| `AuthProperties.VerifyWalletAcceptsPlaceholder` | server/controllers/auth.js:123-150 | A wallet login that names a placeholder's address, the email `temp@temp.com` and role `buyer`, with a signature over the placeholder's nonce, gets a session for the unregistered placeholder record. |

## Left out

- Cryptography is abstract. bcrypt hashing and comparison, ECDSA/EIP-191 signer recovery, JWT signing with the process secret, and `crypto.randomBytes` entropy are functions or parameters. Replay resistance is therefore stated only as nonce rotation (`AuthProperties.VerifyRotatesNonce`), not as a property of signatures.
- `isEmail` is an abstract predicate. The password length rule counts Dafny characters; the validator library's own length count, which is not part of this model, also treats a surrogate pair as one character but ignores the variation selectors U+FE0E and U+FE0F, and that exception is not modelled.
- `toLowerCase` is modelled on ASCII letters only. Non-ASCII case mappings are not modelled.
- The request `role` is always a string; an empty string stands for a login request that gives no role. A JavaScript `undefined` role, or an `undefined` address or email inside a Mongo filter, is not modelled. Neither is the schema default applied to a password signup without a role. The default role is modelled for placeholders.
- Mongo and Mongoose mechanics are left out:
  - unique-index entries for missing fields (a non-sparse index treats them as null);
  - strict mode dropping the undeclared `password` path;
  - update writes that touch only modified paths;
  - timeouts and storage failures other than index and validation failures.
- UserModel.Update: characterises when the save succeeds only for a store in which no other record shares the loaded record's id. The model has no store with duplicate ids to describe otherwise.
- Concurrency is left out. The read-verify-rotate sequence of wallet verify is modelled as one atomic step, so races between concurrent requests are not represented.
- Left out as I/O, not authentication logic:
  - `console.log` output;
  - the Express bootstrap and socket relay (server.js);
  - the React forms (src/components/Auth);
  - the wallet-provider client (src/hooks/useWalletAuth.js).

=== FILE: ascii.dfy ===
/** The `toLowerCase` used when comparing a recovered signer with the
    claimed wallet address, restricted to ASCII letters. */
module Ascii {

  predicate IsUpper(c: char) {
    'A' <= c <= 'Z'
  }

  function LowerChar(c: char): char {
    if IsUpper(c) then (c as int + 32) as char else c
  }

  /** Reference relation: two characters that differ at most by ASCII case. */
  predicate SameLetter(c: char, d: char) {
    c == d
    || (IsUpper(c) && d as int == c as int + 32)
    || (IsUpper(d) && c as int == d as int + 32)
  }

  function Lower(s: string): (r: string)
    ensures |r| == |s|
    ensures forall i :: 0 <= i < |s| ==> r[i] == LowerChar(s[i])
    ensures forall i :: 0 <= i < |r| ==> !IsUpper(r[i])
  {
    if |s| == 0 then "" else [LowerChar(s[0])] + Lower(s[1..])
  }

  /** Case-insensitive equality of addresses. */
  predicate EqualIgnoringCase(s: string, t: string) {
    Lower(s) == Lower(t)
  }

  lemma LowerCharAgrees(c: char, d: char)
    ensures LowerChar(c) == LowerChar(d) <==> SameLetter(c, d)
  {
  }

  /** Lower-casing identifies exactly the strings that agree letter by
      letter up to ASCII case. */
  lemma EqualIgnoringCaseIff(s: string, t: string)
    ensures EqualIgnoringCase(s, t)
        <==> |s| == |t| && forall i :: 0 <= i < |s| ==> SameLetter(s[i], t[i])
  {
    if EqualIgnoringCase(s, t) {
      forall i | 0 <= i < |s|
        ensures SameLetter(s[i], t[i])
      {
        assert Lower(s)[i] == Lower(t)[i];
        LowerCharAgrees(s[i], t[i]);
      }
    }
    if |s| == |t| && forall i :: 0 <= i < |s| ==> SameLetter(s[i], t[i]) {
      forall i | 0 <= i < |s|
        ensures Lower(s)[i] == Lower(t)[i]
      {
        LowerCharAgrees(s[i], t[i]);
      }
    }
  }
}

=== FILE: auth.dfy ===
/** The five authentication handlers. Each is a pure function from the
    account store and a request to the new store and the response. The
    externals (bcrypt, `verifyMessage`, `isEmail`) are fields of
    `Primitives`; the random nonce bytes, the fresh document id and the
    clock are parameters. Any thrown error ends in the catch block's 500. */
module Auth {
  import opened Wrappers
  import opened UserModel
  import opened AuthRoutes
  import opened Session
  import Hex
  import Ascii

  /** `bcrypt.hash`, `bcrypt.compare`, `verifyMessage` (EIP-191 signer
      recovery, None when it throws) and `isEmail`. */
  datatype Primitives = Primitives(
    hash: string -> string,
    matches: (string, string) -> bool,
    recover: (string, string) -> Option<string>,
    isEmail: EmailSyntax)

  /** The distinct error replies, so that replies sharing a status code can
      still be told apart. */
  datatype Failure =
    | InvalidInput        // validationResult not empty
    | DuplicateAccount    // password signup: (role, email) taken
    | InvalidCredentials  // login: unknown email or wrong password
    | RoleMismatch        // login: stored role differs from the one asked for
    | NoAccount           // wallet verify: no (address, email, role) record
    | NoNonce             // wallet signup: no record for the address
    | InvalidSignature    // recovered signer is not the address
    | AlreadyRegistered   // wallet signup: competing registration
    | ServerError         // an exception reached the catch block

  function StatusOf(f: Failure): (code: int)
    ensures code in {400, 401, 404, 500}
    ensures code == 500 <==> f == ServerError
    ensures code == 404 <==> f == NoAccount || f == NoNonce
    ensures code == 400 <==> f == InvalidInput || f == DuplicateAccount || f == AlreadyRegistered
  {
    match f
    case InvalidInput => 400
    case DuplicateAccount => 400
    case InvalidCredentials => 401
    case RoleMismatch => 401
    case NoAccount => 404
    case NoNonce => 404
    case InvalidSignature => 401
    case AlreadyRegistered => 400
    case ServerError => 500
  }

  /** A session reply carries the token together with its user id and role. */
  datatype Response =
    | Created(role: Role)
    | SessionIssued(token: Token)
    | NonceIssued(nonce: string)
    | Failed(error: Failure)

  function Status(r: Response): int {
    match r
    case Created(_) => 201
    case SessionIssued(_) => 200
    case NonceIssued(_) => 200
    case Failed(e) => StatusOf(e)
  }

  datatype Step = Step(store: Store, response: Response)

  /** Outcome of recovering the signer of a stored nonce. */
  datatype SignatureCheck = Throws | Mismatch | Match

  /** `verifyMessage(nonce, signature)` compared case-insensitively with
      the claimed address; it throws on a missing nonce or a malformed
      signature. */
  function CheckSignature(p: Primitives, nonce: Option<string>, signature: string, address: string): (c: SignatureCheck)
    ensures c == Throws <==> nonce.None? || p.recover(nonce.value, signature).None?
    ensures c == Match <==>
      && nonce.Some? && p.recover(nonce.value, signature).Some?
      && var signer := p.recover(nonce.value, signature).value;
         |signer| == |address| && forall k :: 0 <= k < |signer| ==> Ascii.SameLetter(signer[k], address[k])
  {
    match nonce
    case None => Throws
    case Some(m) =>
      match p.recover(m, signature)
      case None => Throws
      case Some(signer) =>
        Ascii.EqualIgnoringCaseIff(signer, address);
        if Ascii.EqualIgnoringCase(signer, address) then Match else Mismatch
  }

  // ---------------------------------------------------------------------
  // Store queries used by the contracts

  ghost predicate HasRoleEmail(s: Store, email: string, role: string) {
    exists i :: 0 <= i < |s| && s[i].email == email && RoleName(s[i].role) == role
  }

  ghost predicate EmailFree(s: Store, email: string) {
    forall i :: 0 <= i < |s| ==> s[i].email != email
  }

  ghost predicate IdFree(s: Store, id: Id) {
    forall i :: 0 <= i < |s| ==> s[i].id != id
  }

  ghost predicate HasAddress(s: Store, address: string) {
    exists i :: 0 <= i < |s| && s[i].walletAddress == Some(address)
  }

  predicate PasswordMatches(a: Account, password: string, p: Primitives) {
    a.password.Some? && p.matches(password, a.password.value)
  }

  /** The record a login request would be accepted for. */
  predicate LoginAccepts(a: Account, req: LoginRequest, p: Primitives) {
    && a.email == req.email
    && PasswordMatches(a, req.password, p)
    && (req.role == "" || RoleName(a.role) == req.role)
  }

  /** The record a wallet-verify request names: address, email and role. */
  predicate HoldsClaims(a: Account, address: string, email: string, role: string) {
    a.walletAddress == Some(address) && a.email == email && RoleName(a.role) == role
  }

  /** Some record holding the claimed address, email and role has stored
      a nonce on which the signature check gives `c`. */
  ghost predicate ClaimsChecked(s: Store, req: WalletVerifyRequest, p: Primitives, c: SignatureCheck) {
    exists i :: 0 <= i < |s| && HoldsClaims(s[i], req.address, req.email, req.role)
                && CheckSignature(p, s[i].nonce, req.signature, req.address) == c
  }

  /** Some record holding the address has stored a nonce on which the
      signature check gives `c`. */
  ghost predicate AddressChecked(s: Store, address: string, signature: string, p: Primitives, c: SignatureCheck) {
    exists i :: 0 <= i < |s| && s[i].walletAddress == Some(address)
                && CheckSignature(p, s[i].nonce, signature, address) == c
  }

  /** A completed registration that a wallet signup may not duplicate. */
  predicate Competing(a: Account, req: WalletSignupRequest) {
    && !IsPlaceholder(a)
    && RoleName(a.role) == req.role
    && (a.email == req.email || a.walletAddress == Some(req.address))
  }

  /** The placeholder a nonce request creates for an unknown address. */
  function Placeholder(id: Id, address: string, nonce: string): Account {
    Account(id, PlaceholderName, PlaceholderEmail, None, Some(address), Some(nonce), DefaultRole)
  }

  /** The record found by address after a wallet signup rewrote it. */
  function Promoted(a: Account, req: WalletSignupRequest, role: Role, nonce: string): Account {
    a.(username := req.username, email := req.email, role := role, nonce := Some(nonce))
  }

  // ---------------------------------------------------------------------
  // Handlers

  /** Password signup. */
  function Signup(s: Store, req: SignupRequest, p: Primitives, freshId: Id): (r: Step)
    ensures r.response.Created? || r.response.Failed?
    ensures r.response.Failed? ==> r.store == s
    ensures !SignupInputOk(req, p.isEmail) <==> r.response == Failed(InvalidInput)
    ensures r.response == Failed(DuplicateAccount)
        <==> SignupInputOk(req, p.isEmail) && HasRoleEmail(s, req.email, req.role)
    ensures r.response.Created?
        <==> && SignupInputOk(req, p.isEmail)
             && !HasRoleEmail(s, req.email, req.role)
             && ParseRole(req.role).Some?
             && req.email != ""
             && EmailFree(s, req.email)
             && IdFree(s, freshId)
    ensures r.response.Created? ==>
      && RoleName(r.response.role) == req.role
      && r.store == s + [Account(freshId, req.username, req.email, Some(p.hash(req.password)), None, None, r.response.role)]
    ensures r.response.Failed? ==> r.response.error.InvalidInput? || r.response.error.DuplicateAccount?
                                   || r.response.error.ServerError?
    ensures Valid(s) ==> Valid(r.store)
  {
    if !SignupInputOk(req, p.isEmail) then Step(s, Failed(InvalidInput))
    else if FindFirst(s, (a: Account) => RoleName(a.role) == req.role && a.email == req.email).Some? then
      Step(s, Failed(DuplicateAccount))
    else
      match ParseRole(req.role)
      case None => Step(s, Failed(ServerError))
      case Some(role) =>
        var doc := Account(freshId, req.username, req.email, Some(p.hash(req.password)), None, None, role);
        match Insert(s, doc)
        case None => Step(s, Failed(ServerError))
        case Some(s') => Step(s', Created(role))
  }

  /** Password login. */
  function Login(s: Store, req: LoginRequest, p: Primitives, now: int): (r: Step)
    ensures r.store == s
    ensures r.response.SessionIssued? || r.response.Failed?
    ensures !LoginInputOk(req, p.isEmail) <==> r.response == Failed(InvalidInput)
    ensures LoginInputOk(req, p.isEmail) && EmailFree(s, req.email) ==> r.response == Failed(InvalidCredentials)
    ensures r.response.SessionIssued? ==>
      exists i :: 0 <= i < |s| && LoginAccepts(s[i], req, p) && r.response.token == Issue(s[i].id, s[i].role, now)
    ensures r.response == Failed(RoleMismatch) ==>
      exists i :: 0 <= i < |s| && s[i].email == req.email && PasswordMatches(s[i], req.password, p)
                  && req.role != "" && RoleName(s[i].role) != req.role
    ensures Valid(s) && LoginInputOk(req, p.isEmail) && (exists i :: 0 <= i < |s| && LoginAccepts(s[i], req, p))
      ==> r.response.SessionIssued?
    ensures Valid(s) && LoginInputOk(req, p.isEmail)
            && (exists i :: 0 <= i < |s| && s[i].email == req.email && s[i].password.Some?
                            && !PasswordMatches(s[i], req.password, p))
      ==> r.response == Failed(InvalidCredentials)
    ensures Valid(s) && LoginInputOk(req, p.isEmail)
            && (exists i :: 0 <= i < |s| && s[i].email == req.email && s[i].password.None?)
      ==> r.response == Failed(ServerError)
    ensures Valid(s) && LoginInputOk(req, p.isEmail) && req.role != ""
            && (exists i :: 0 <= i < |s| && s[i].email == req.email && PasswordMatches(s[i], req.password, p)
                            && RoleName(s[i].role) != req.role)
      ==> r.response == Failed(RoleMismatch)
    ensures r.response.Failed? ==> r.response.error.InvalidInput? || r.response.error.InvalidCredentials?
                                   || r.response.error.RoleMismatch? || r.response.error.ServerError?
    ensures Status(r.response) == 401 <==> r.response == Failed(InvalidCredentials) || r.response == Failed(RoleMismatch)
  {
    if !LoginInputOk(req, p.isEmail) then Step(s, Failed(InvalidInput))
    else
      match FindFirst(s, (a: Account) => a.email == req.email)
      case None => Step(s, Failed(InvalidCredentials))
      case Some(i) =>
        var u := s[i];
        if u.password.None? then Step(s, Failed(ServerError))
        else if !p.matches(req.password, u.password.value) then Step(s, Failed(InvalidCredentials))
        else if req.role != "" && RoleName(u.role) != req.role then Step(s, Failed(RoleMismatch))
        else Step(s, SessionIssued(Issue(u.id, u.role, now)))
  }

  /** Nonce request for a wallet address; `rnd` is the 32 random bytes. */
  function GetNonce(s: Store, address: string, rnd: seq<Hex.byte>, freshId: Id): (r: Step)
    requires |rnd| == Hex.NonceBytes
    ensures r.response.NonceIssued? || r.response == Failed(ServerError)
    ensures r.response.Failed? ==> r.store == s
    ensures r.response.NonceIssued? ==>
      && r.response.nonce == Hex.Encode(rnd)
      && Hex.IsNonce(r.response.nonce)
      && exists i :: 0 <= i < |r.store| && r.store[i].walletAddress == Some(address)
                     && r.store[i].nonce == Some(r.response.nonce)
    ensures !HasAddress(s, address) ==>
      (r.response.NonceIssued? <==> EmailFree(s, PlaceholderEmail) && IdFree(s, freshId))
    ensures !HasAddress(s, address) && r.response.NonceIssued? ==>
      r.store == s + [Placeholder(freshId, address, Hex.Encode(rnd))]
    ensures Valid(s) ==> forall i :: 0 <= i < |s| && s[i].walletAddress == Some(address) ==>
      r.response.NonceIssued? && r.store == s[i := s[i].(nonce := Some(Hex.Encode(rnd)))]
    ensures Valid(s) ==> Valid(r.store)
  {
    var nonce := Hex.Encode(rnd);
    Hex.EncodeIsNonce(rnd);
    match FindFirst(s, (a: Account) => a.walletAddress == Some(address))
    case None =>
      (match Insert(s, Placeholder(freshId, address, nonce))
       case None => Step(s, Failed(ServerError))
       case Some(s') =>
         assert s'[|s|] == Placeholder(freshId, address, nonce);
         Step(s', NonceIssued(nonce)))
    case Some(i) =>
      match Update(s, i, s[i].(nonce := Some(nonce)))
      case None => Step(s, Failed(ServerError))
      case Some(s') =>
        assert s'[i] == s[i].(nonce := Some(nonce));
        Step(s', NonceIssued(nonce))
  }

  /** Wallet login: exact (address, email, role) lookup, signature check on
      the stored nonce, then nonce rotation. */
  function VerifyWallet(s: Store, req: WalletVerifyRequest, p: Primitives, rnd: seq<Hex.byte>, now: int): (r: Step)
    requires |rnd| == Hex.NonceBytes
    ensures r.response.SessionIssued? || r.response.Failed?
    ensures r.response.Failed? ==> r.store == s
    ensures (forall i :: 0 <= i < |s| ==> !HoldsClaims(s[i], req.address, req.email, req.role))
        <==> r.response == Failed(NoAccount)
    ensures r.response == Failed(InvalidSignature) ==> ClaimsChecked(s, req, p, Mismatch)
    ensures r.response.SessionIssued? ==>
      exists i :: 0 <= i < |s| && HoldsClaims(s[i], req.address, req.email, req.role)
                  && CheckSignature(p, s[i].nonce, req.signature, req.address) == Match
                  && r.store == s[i := s[i].(nonce := Some(Hex.Encode(rnd)))]
                  && r.response.token == Issue(s[i].id, s[i].role, now)
    ensures Valid(s) && ClaimsChecked(s, req, p, Match) ==> r.response.SessionIssued?
    ensures Valid(s) && ClaimsChecked(s, req, p, Mismatch) ==> r.response == Failed(InvalidSignature)
    ensures Valid(s) && ClaimsChecked(s, req, p, Throws) ==> r.response == Failed(ServerError)
    ensures r.response.Failed? ==> r.response.error.NoAccount? || r.response.error.InvalidSignature?
                                   || r.response.error.ServerError?
    ensures Valid(s) ==> Valid(r.store)
  {
    match FindFirst(s, (a: Account) => HoldsClaims(a, req.address, req.email, req.role))
    case None => Step(s, Failed(NoAccount))
    case Some(i) =>
      var u := s[i];
      match CheckSignature(p, u.nonce, req.signature, req.address)
      case Throws => Step(s, Failed(ServerError))
      case Mismatch => Step(s, Failed(InvalidSignature))
      case Match =>
        Hex.EncodeIsNonce(rnd);
        match Update(s, i, u.(nonce := Some(Hex.Encode(rnd))))
        case None => Step(s, Failed(ServerError))
        case Some(s') => Step(s', SessionIssued(Issue(u.id, u.role, now)))
  }

  /** Wallet signup: validation, lookup by address, signature check, the
      competing-registration check, then promotion of the found record. */
  function SignupWallet(s: Store, req: WalletSignupRequest, p: Primitives, rnd: seq<Hex.byte>, now: int): (r: Step)
    requires |rnd| == Hex.NonceBytes
    ensures r.response.SessionIssued? || r.response.Failed?
    ensures r.response.Failed? ==> r.store == s
    ensures !WalletSignupInputOk(req, p.isEmail) <==> r.response == Failed(InvalidInput)
    ensures WalletSignupInputOk(req, p.isEmail) && !HasAddress(s, req.address) <==> r.response == Failed(NoNonce)
    ensures r.response == Failed(InvalidSignature) ==> AddressChecked(s, req.address, req.signature, p, Mismatch)
    ensures r.response == Failed(AlreadyRegistered) ==>
      && AddressChecked(s, req.address, req.signature, p, Match)
      && (exists j :: 0 <= j < |s| && Competing(s[j], req))
    ensures r.response.SessionIssued? ==>
      && WalletSignupInputOk(req, p.isEmail)
      && ParseRole(req.role).Some?
      && (forall j :: 0 <= j < |s| ==> !Competing(s[j], req))
      && exists i :: 0 <= i < |s| && s[i].walletAddress == Some(req.address)
                     && CheckSignature(p, s[i].nonce, req.signature, req.address) == Match
                     && r.store == s[i := Promoted(s[i], req, ParseRole(req.role).value, Hex.Encode(rnd))]
                     && r.response.token == Issue(s[i].id, ParseRole(req.role).value, now)
    ensures Valid(s) && WalletSignupInputOk(req, p.isEmail) && ParseRole(req.role).Some? && req.email != ""
            && (forall j :: 0 <= j < |s| ==> !Competing(s[j], req))
            && (exists i :: 0 <= i < |s| && s[i].walletAddress == Some(req.address)
                            && CheckSignature(p, s[i].nonce, req.signature, req.address) == Match
                            && forall j :: 0 <= j < |s| && j != i ==> s[j].email != req.email)
      ==> r.response.SessionIssued?
    ensures Valid(s) && WalletSignupInputOk(req, p.isEmail) && AddressChecked(s, req.address, req.signature, p, Mismatch)
      ==> r.response == Failed(InvalidSignature)
    ensures Valid(s) && WalletSignupInputOk(req, p.isEmail) && AddressChecked(s, req.address, req.signature, p, Throws)
      ==> r.response == Failed(ServerError)
    ensures r.response.Failed? ==>
      || r.response.error.InvalidInput? || r.response.error.NoNonce? || r.response.error.InvalidSignature?
      || r.response.error.AlreadyRegistered? || r.response.error.ServerError?
    ensures Valid(s) ==> Valid(r.store)
  {
    if !WalletSignupInputOk(req, p.isEmail) then Step(s, Failed(InvalidInput))
    else
      match FindFirst(s, (a: Account) => a.walletAddress == Some(req.address))
      case None => Step(s, Failed(NoNonce))
      case Some(i) =>
        var tmp := s[i];
        match CheckSignature(p, tmp.nonce, req.signature, req.address)
        case Throws => Step(s, Failed(ServerError))
        case Mismatch => Step(s, Failed(InvalidSignature))
        case Match => Register(s, i, req, rnd, now)
  }

  /** The part of wallet signup after the signature check: the
      competing-registration query, then the save that promotes record `i`. */
  function Register(s: Store, i: nat, req: WalletSignupRequest, rnd: seq<Hex.byte>, now: int): (r: Step)
    requires i < |s| && |rnd| == Hex.NonceBytes
    ensures r.response.SessionIssued? || r.response == Failed(AlreadyRegistered) || r.response == Failed(ServerError)
    ensures r.response.Failed? ==> r.store == s
    ensures r.response == Failed(AlreadyRegistered) <==> exists j :: 0 <= j < |s| && Competing(s[j], req)
    ensures r.response.SessionIssued? ==>
      && ParseRole(req.role).Some?
      && r.store == s[i := Promoted(s[i], req, ParseRole(req.role).value, Hex.Encode(rnd))]
      && r.response.token == Issue(s[i].id, ParseRole(req.role).value, now)
    ensures Valid(s) && s[i].walletAddress.Some? && ParseRole(req.role).Some? && req.username != "" && req.email != ""
            && (forall j :: 0 <= j < |s| ==> !Competing(s[j], req))
            && (forall j :: 0 <= j < |s| && j != i ==> s[j].email != req.email)
      ==> r.response.SessionIssued?
    ensures Valid(s) && s[i].walletAddress.Some? ==> Valid(r.store)
  {
    if FindFirst(s, (a: Account) => Competing(a, req)).Some? then Step(s, Failed(AlreadyRegistered))
    else
      match ParseRole(req.role)
      case None => Step(s, Failed(ServerError))
      case Some(role) =>
        Hex.EncodeIsNonce(rnd);
        match Update(s, i, Promoted(s[i], req, role, Hex.Encode(rnd)))
        case None => Step(s, Failed(ServerError))
        case Some(s') => Step(s', SessionIssued(Issue(s[i].id, role, now)))
  }
}

=== FILE: auth_properties.dfy ===
/** Properties that relate several handler calls: the password and wallet
    registration round trips, the duplicate rejections that follow them,
    nonce rotation, and two consequences of the schema's global unique
    `email` index. */
module AuthProperties {
  import opened Wrappers
  import opened UserModel
  import opened AuthRoutes
  import opened Session
  import opened Auth
  import Hex

  /** bcrypt accepts a password against its own hash. */
  ghost predicate HashSound(p: Primitives) {
    forall pw :: p.matches(pw, p.hash(pw))
  }

  /** A successful password signup is followed by a successful login with
      the same email, password and role, for the new record's id. */
  lemma SignupThenLogin(s: Store, req: SignupRequest, p: Primitives, freshId: Id, now: int)
    requires Valid(s) && HashSound(p)
    requires Signup(s, req, p, freshId).response.Created?
    ensures
      var r := Signup(s, req, p, freshId);
      Login(r.store, LoginRequest(req.email, req.password, req.role), p, now).response
        == SessionIssued(Issue(freshId, r.response.role, now))
  {
    var r := Signup(s, req, p, freshId);
    var s1 := r.store;
    var lreq := LoginRequest(req.email, req.password, req.role);
    SignupInputAdmitsLogin(req, p.isEmail, req.role);
    assert s1[|s|].id == freshId;
    assert LoginAccepts(s1[|s|], lreq, p);
    var l := Login(s1, lreq, p, now);
    assert l.response.SessionIssued?;
    var i :| 0 <= i < |s1| && LoginAccepts(s1[i], lreq, p) && l.response.token == Issue(s1[i].id, s1[i].role, now);
    assert i == |s|;
  }

  /** Signing up again with the same email and role is a duplicate. */
  lemma SignupTwiceRejected(s: Store, req: SignupRequest, p: Primitives, freshId: Id, laterId: Id)
    requires Signup(s, req, p, freshId).response.Created?
    ensures
      var s1 := Signup(s, req, p, freshId).store;
      Signup(s1, req, p, laterId) == Step(s1, Failed(DuplicateAccount))
  {
    var r := Signup(s, req, p, freshId);
    assert r.store[|s|].email == req.email && RoleName(r.store[|s|].role) == req.role;
    assert HasRoleEmail(r.store, req.email, req.role);
  }

  /** Email is unique across roles in the schema, so signing up for the
      second role of an email fails in the save, with a 500. */
  lemma SecondRoleSignupFails(s: Store, req: SignupRequest, p: Primitives, freshId: Id, i: nat)
    requires SignupInputOk(req, p.isEmail) && ParseRole(req.role).Some?
    requires i < |s| && s[i].email == req.email && RoleName(s[i].role) != req.role
    requires forall j :: 0 <= j < |s| ==> !(s[j].email == req.email && RoleName(s[j].role) == req.role)
    ensures Signup(s, req, p, freshId) == Step(s, Failed(ServerError))
  {
    assert !EmailFree(s, req.email);
    assert !HasRoleEmail(s, req.email, req.role);
  }

  /** All placeholders share one email, so while one exists a nonce request
      for a new address fails, with a 500, and changes nothing. */
  lemma SecondPlaceholderBlocked(s: Store, address: string, rnd: seq<Hex.byte>, freshId: Id, i: nat)
    requires |rnd| == Hex.NonceBytes
    requires i < |s| && s[i].email == PlaceholderEmail
    requires forall j :: 0 <= j < |s| ==> s[j].walletAddress != Some(address)
    ensures GetNonce(s, address, rnd, freshId) == Step(s, Failed(ServerError))
  {
    assert !EmailFree(s, PlaceholderEmail);
  }

  /** Requesting a nonce for a new address, signing it, and signing up
      promotes the placeholder: the id is kept and no record is added. */
  lemma NonceThenSignupWallet(
    s: Store, address: string, rnd: seq<Hex.byte>, freshId: Id,
    req: WalletSignupRequest, p: Primitives, rnd2: seq<Hex.byte>, now: int)
    requires |rnd| == Hex.NonceBytes && |rnd2| == Hex.NonceBytes
    requires Valid(s) && !HasAddress(s, address)
    requires GetNonce(s, address, rnd, freshId).response.NonceIssued?
    requires req.address == address && p.recover(Hex.Encode(rnd), req.signature) == Some(address)
    requires WalletSignupInputOk(req, p.isEmail) && ParseRole(req.role).Some? && req.email != ""
    requires EmailFree(s, req.email)
    ensures
      var s1 := GetNonce(s, address, rnd, freshId).store;
      var r := SignupWallet(s1, req, p, rnd2, now);
      && r.response == SessionIssued(Issue(freshId, ParseRole(req.role).value, now))
      && |r.store| == |s1| == |s| + 1
      && r.store[|s|] == Promoted(s1[|s|], req, ParseRole(req.role).value, Hex.Encode(rnd2))
  {
    var s1 := GetNonce(s, address, rnd, freshId).store;
    assert s1 == s + [Placeholder(freshId, address, Hex.Encode(rnd))];
    assert CheckSignature(p, s1[|s|].nonce, req.signature, address) == Match;
    forall j | 0 <= j < |s1|
      ensures !Competing(s1[j], req)
    {
      if j < |s| {
        assert s1[j] == s[j];
      }
    }
    assert forall j :: 0 <= j < |s1| && j != |s| ==> s1[j].email != req.email;
    var r := SignupWallet(s1, req, p, rnd2, now);
    assert r.response.SessionIssued?;
    var i :| 0 <= i < |s1| && s1[i].walletAddress == Some(address)
             && r.store == s1[i := Promoted(s1[i], req, ParseRole(req.role).value, Hex.Encode(rnd2))]
             && r.response.token == Issue(s1[i].id, ParseRole(req.role).value, now);
    assert i == |s|;
  }

  /** Once the signature checks out, a competing registration rejects a
      wallet signup whatever else the request says. */
  lemma SignupWalletRejectsCompeting(
    s: Store, req: WalletSignupRequest, p: Primitives, rnd: seq<Hex.byte>, now: int, i: nat, j: nat)
    requires |rnd| == Hex.NonceBytes
    requires Valid(s) && WalletSignupInputOk(req, p.isEmail)
    requires i < |s| && s[i].walletAddress == Some(req.address)
    requires CheckSignature(p, s[i].nonce, req.signature, req.address) == Match
    requires j < |s| && Competing(s[j], req)
    ensures SignupWallet(s, req, p, rnd, now) == Step(s, Failed(AlreadyRegistered))
  {
    var k := FindFirst(s, (a: Account) => a.walletAddress == Some(req.address));
    assert k.Some?;
    assert k.value == i by {
      if k.value != i {
        assert Conflicts(s[k.value], s[i]);
      }
    }
    assert FindFirst(s, (a: Account) => Competing(a, req)).Some?;
  }

  /** The record a successful wallet signup promoted, in the new store. */
  lemma SignupWalletPromotes(s: Store, req: WalletSignupRequest, p: Primitives, rnd: seq<Hex.byte>, now: int)
    returns (i: nat)
    requires |rnd| == Hex.NonceBytes
    requires Valid(s) && SignupWallet(s, req, p, rnd, now).response.SessionIssued?
    ensures
      var s1 := SignupWallet(s, req, p, rnd, now).store;
      && Valid(s1) && i < |s1| && WalletSignupInputOk(req, p.isEmail)
      && s1[i].walletAddress == Some(req.address) && s1[i].nonce == Some(Hex.Encode(rnd))
      && s1[i].username == req.username && s1[i].email == req.email
      && RoleName(s1[i].role) == req.role
      && SignupWallet(s, req, p, rnd, now).response.token == Issue(s1[i].id, s1[i].role, now)
  {
    var r := SignupWallet(s, req, p, rnd, now);
    var role := ParseRole(req.role).value;
    i :| 0 <= i < |s| && s[i].walletAddress == Some(req.address)
         && r.store == s[i := Promoted(s[i], req, role, Hex.Encode(rnd))]
         && r.response.token == Issue(s[i].id, role, now);
  }

  /** After a wallet signup under a real username, the same signup signed
      over the rotated nonce is rejected as a registration that exists. */
  lemma SignupWalletTwiceRejected(
    s: Store, req: WalletSignupRequest, p: Primitives, rnd: seq<Hex.byte>, now: int,
    signature: string, rnd2: seq<Hex.byte>, later: int)
    requires |rnd| == Hex.NonceBytes && |rnd2| == Hex.NonceBytes
    requires Valid(s) && req.username != PlaceholderName
    requires SignupWallet(s, req, p, rnd, now).response.SessionIssued?
    requires p.recover(Hex.Encode(rnd), signature) == Some(req.address)
    ensures
      var s1 := SignupWallet(s, req, p, rnd, now).store;
      SignupWallet(s1, req.(signature := signature), p, rnd2, later) == Step(s1, Failed(AlreadyRegistered))
  {
    var s1 := SignupWallet(s, req, p, rnd, now).store;
    var i := SignupWalletPromotes(s, req, p, rnd, now);
    var req2 := req.(signature := signature);
    assert Competing(s1[i], req2);
    assert CheckSignature(p, s1[i].nonce, signature, req.address) == Match;
    SignupWalletRejectsCompeting(s1, req2, p, rnd2, later, i, i);
  }

  /** A signup under the placeholder username leaves the record looking
      like a placeholder, so the competing-registration check never sees
      it and a repeated signup for the same address and role succeeds. */
  lemma TempUsernameEvadesDuplicateCheck(
    s: Store, req: WalletSignupRequest, p: Primitives, rnd: seq<Hex.byte>, now: int,
    signature: string, rnd2: seq<Hex.byte>, later: int)
    requires |rnd| == Hex.NonceBytes && |rnd2| == Hex.NonceBytes
    requires Valid(s) && req.username == PlaceholderName
    requires SignupWallet(s, req, p, rnd, now).response.SessionIssued?
    requires p.recover(Hex.Encode(rnd), signature) == Some(req.address)
    ensures
      var s1 := SignupWallet(s, req, p, rnd, now).store;
      SignupWallet(s1, req.(signature := signature), p, rnd2, later).response.SessionIssued?
  {
    var s1 := SignupWallet(s, req, p, rnd, now).store;
    var i := SignupWalletPromotes(s, req, p, rnd, now);
    var req2 := req.(signature := signature);
    assert CheckSignature(p, s1[i].nonce, signature, req.address) == Match;
    assert IsPlaceholder(s1[i]) && SchemaOk(s1[i]);
    assert forall j :: 0 <= j < |s1| && j != i ==> !Conflicts(s1[j], s1[i]);
    assert forall j :: 0 <= j < |s1| ==> !Competing(s1[j], req2);
  }

  /** A successful wallet login replaces the stored nonce with a new one
      whenever the fresh random bytes differ from those of the old nonce,
      so the old signed message is no longer what is checked. */
  lemma VerifyRotatesNonce(
    s: Store, req: WalletVerifyRequest, p: Primitives, rnd: seq<Hex.byte>, now: int,
    i: nat, previous: seq<Hex.byte>)
    requires |rnd| == Hex.NonceBytes
    requires Valid(s) && i < |s| && HoldsClaims(s[i], req.address, req.email, req.role)
    requires s[i].nonce == Some(Hex.Encode(previous)) && previous != rnd
    requires VerifyWallet(s, req, p, rnd, now).response.SessionIssued?
    ensures
      var s1 := VerifyWallet(s, req, p, rnd, now).store;
      && s1[i].nonce != s[i].nonce
      && s1[i] == s[i].(nonce := s1[i].nonce)
      && forall j :: 0 <= j < |s| && j != i ==> s1[j] == s[j]
  {
    var r := VerifyWallet(s, req, p, rnd, now);
    var k :| 0 <= k < |s| && HoldsClaims(s[k], req.address, req.email, req.role)
             && r.store == s[k := s[k].(nonce := Some(Hex.Encode(rnd)))];
    if k != i {
      assert Conflicts(s[k], s[i]);
      assert false;
    }
    Hex.EncodeInjective(rnd, previous);
  }

  /** A wallet signup under the other role rewrites a completed
      registration found by address in place: the record keeps its id and
      its address but now carries the new role, and the store holds no
      record of the old registration. */
  lemma SignupWalletReassignsRole(
    s: Store, req: WalletSignupRequest, p: Primitives, rnd: seq<Hex.byte>, now: int, i: nat)
    requires |rnd| == Hex.NonceBytes
    requires Valid(s) && i < |s| && !IsPlaceholder(s[i]) && s[i].walletAddress == Some(req.address)
    requires CheckSignature(p, s[i].nonce, req.signature, req.address) == Match
    requires WalletSignupInputOk(req, p.isEmail) && req.email != ""
    requires ParseRole(req.role) == Some(Seller) && s[i].role == Buyer
    requires forall j :: 0 <= j < |s| ==> s[j].email != req.email
    ensures
      var r := SignupWallet(s, req, p, rnd, now);
      && r.response == SessionIssued(Issue(s[i].id, Seller, now))
      && |r.store| == |s|
      && r.store[i].id == s[i].id && r.store[i].role == Seller
      && r.store[i].walletAddress == s[i].walletAddress
  {
    forall j | 0 <= j < |s|
      ensures !Competing(s[j], req)
    {
      if j != i {
        assert !Conflicts(s[j], s[i]);
      }
    }
    var r := SignupWallet(s, req, p, rnd, now);
    assert r.response.SessionIssued?;
    var k :| 0 <= k < |s| && s[k].walletAddress == Some(req.address)
             && r.store == s[k := Promoted(s[k], req, Seller, Hex.Encode(rnd))]
             && r.response.token == Issue(s[k].id, Seller, now);
    assert k == i by {
      if k != i {
        assert Conflicts(s[k], s[i]);
      }
    }
  }

  /** After a wallet signup, requesting a fresh nonce and signing it logs
      in with the signup's email and role, for the promoted record's id and
      the role it registered under. */
  lemma SignupWalletThenVerify(
    s: Store, req: WalletSignupRequest, p: Primitives, rnd: seq<Hex.byte>, now: int,
    rnd2: seq<Hex.byte>, freshId: Id, signature: string, rnd3: seq<Hex.byte>, later: int)
    requires |rnd| == Hex.NonceBytes && |rnd2| == Hex.NonceBytes && |rnd3| == Hex.NonceBytes
    requires Valid(s) && SignupWallet(s, req, p, rnd, now).response.SessionIssued?
    requires p.recover(Hex.Encode(rnd2), signature) == Some(req.address)
    ensures
      var r1 := SignupWallet(s, req, p, rnd, now);
      var r2 := GetNonce(r1.store, req.address, rnd2, freshId);
      var vreq := WalletVerifyRequest(req.address, signature, req.email, req.role);
      && r2.response == NonceIssued(Hex.Encode(rnd2))
      && VerifyWallet(r2.store, vreq, p, rnd3, later).response
           == SessionIssued(Issue(r1.response.token.userId, r1.response.token.role, later))
  {
    var r1 := SignupWallet(s, req, p, rnd, now);
    var s1 := r1.store;
    var i := SignupWalletPromotes(s, req, p, rnd, now);
    var r2 := GetNonce(s1, req.address, rnd2, freshId);
    var s2 := r2.store;
    assert r2.response.NonceIssued? && s2 == s1[i := s1[i].(nonce := Some(Hex.Encode(rnd2)))];
    assert Valid(s2);
    var vreq := WalletVerifyRequest(req.address, signature, req.email, req.role);
    assert HoldsClaims(s2[i], req.address, req.email, req.role);
    assert CheckSignature(p, s2[i].nonce, signature, req.address) == Match;
    VerifyWalletAccepts(s2, vreq, p, rnd3, later, i);
  }

  /** In a valid store, a record holding the claimed address, email and
      role whose nonce the signature matches is the one a wallet login
      issues its token for. */
  lemma VerifyWalletAccepts(s: Store, req: WalletVerifyRequest, p: Primitives, rnd: seq<Hex.byte>, now: int, i: nat)
    requires |rnd| == Hex.NonceBytes
    requires Valid(s) && i < |s| && HoldsClaims(s[i], req.address, req.email, req.role)
    requires CheckSignature(p, s[i].nonce, req.signature, req.address) == Match
    ensures VerifyWallet(s, req, p, rnd, now).response == SessionIssued(Issue(s[i].id, s[i].role, now))
  {
    var v := VerifyWallet(s, req, p, rnd, now);
    var k :| 0 <= k < |s| && HoldsClaims(s[k], req.address, req.email, req.role)
             && v.response.token == Issue(s[k].id, s[k].role, now);
    assert k == i;
  }

  /** Wallet login matches a placeholder like any other record: a request
      naming the placeholder email and the default role, signed over the
      placeholder's nonce, gets a session for the unregistered record. */
  lemma VerifyWalletAcceptsPlaceholder(
    s: Store, address: string, signature: string, p: Primitives, rnd: seq<Hex.byte>, now: int, i: nat)
    requires |rnd| == Hex.NonceBytes
    requires Valid(s) && i < |s| && IsPlaceholder(s[i]) && s[i].email == PlaceholderEmail
    requires s[i].walletAddress == Some(address) && s[i].role == DefaultRole
    requires CheckSignature(p, s[i].nonce, signature, address) == Match
    ensures
      var req := WalletVerifyRequest(address, signature, PlaceholderEmail, RoleName(DefaultRole));
      VerifyWallet(s, req, p, rnd, now).response == SessionIssued(Issue(s[i].id, Buyer, now))
  {
    var req := WalletVerifyRequest(address, signature, PlaceholderEmail, RoleName(DefaultRole));
    VerifyWalletAccepts(s, req, p, rnd, now, i);
  }
}

=== FILE: auth_routes.dfy ===
/** The request bodies of the authentication routes and the field checks
    the router runs before a controller sees a request. The nonce route
    (an address path parameter) and the wallet-verify route have no
    checks, and no route checks `role`: it reaches the controllers as
    whatever string the caller sent. */
module AuthRoutes {

  /** `isEmail` is an abstract syntax predicate supplied by the caller. */
  type EmailSyntax = string -> bool

  datatype SignupRequest = SignupRequest(username: string, email: string, password: string, role: string)

  /** An empty `role` stands for a request that gives none. */
  datatype LoginRequest = LoginRequest(email: string, password: string, role: string)

  datatype WalletVerifyRequest = WalletVerifyRequest(address: string, signature: string, email: string, role: string)

  datatype WalletSignupRequest =
    WalletSignupRequest(address: string, signature: string, username: string, email: string, role: string)

  /** The body fields a check can reject, in the order the router lists them. */
  datatype Field = Username | Email | Password

  const MinPasswordLength: nat := 6

  function UsernameErrors(username: string): seq<Field> {
    if username == "" then [Username] else []
  }

  function EmailErrors(email: string, isEmail: EmailSyntax): seq<Field> {
    if isEmail(email) then [] else [Email]
  }

  function PasswordErrors(password: string): seq<Field> {
    if |password| < MinPasswordLength then [Password] else []
  }

  /** `validationResult` of the signup route. */
  function SignupErrors(req: SignupRequest, isEmail: EmailSyntax): (errs: seq<Field>)
    ensures Username in errs <==> req.username == ""
    ensures Email in errs <==> !isEmail(req.email)
    ensures Password in errs <==> |req.password| < MinPasswordLength
    ensures |errs| <= 3
  {
    UsernameErrors(req.username) + EmailErrors(req.email, isEmail) + PasswordErrors(req.password)
  }

  /** `validationResult` of the login route: there is no username field. */
  function LoginErrors(req: LoginRequest, isEmail: EmailSyntax): (errs: seq<Field>)
    ensures Username !in errs
    ensures Email in errs <==> !isEmail(req.email)
    ensures Password in errs <==> |req.password| < MinPasswordLength
  {
    EmailErrors(req.email, isEmail) + PasswordErrors(req.password)
  }

  /** `validationResult` of the wallet-signup route: no password rule. */
  function WalletSignupErrors(req: WalletSignupRequest, isEmail: EmailSyntax): (errs: seq<Field>)
    ensures Password !in errs
    ensures Username in errs <==> req.username == ""
    ensures Email in errs <==> !isEmail(req.email)
  {
    UsernameErrors(req.username) + EmailErrors(req.email, isEmail)
  }

  predicate SignupInputOk(req: SignupRequest, isEmail: EmailSyntax) {
    SignupErrors(req, isEmail) == []
  }

  predicate LoginInputOk(req: LoginRequest, isEmail: EmailSyntax) {
    LoginErrors(req, isEmail) == []
  }

  predicate WalletSignupInputOk(req: WalletSignupRequest, isEmail: EmailSyntax) {
    WalletSignupErrors(req, isEmail) == []
  }

  /** A request that passes the signup checks also passes the login checks
      for the same email and password. */
  lemma SignupInputAdmitsLogin(req: SignupRequest, isEmail: EmailSyntax, role: string)
    requires SignupInputOk(req, isEmail)
    ensures LoginInputOk(LoginRequest(req.email, req.password, role), isEmail)
  {
    assert Email !in SignupErrors(req, isEmail);
    assert Password !in SignupErrors(req, isEmail);
  }
}

=== FILE: hex.dfy ===
/** Lower-case hexadecimal encoding of random bytes, as produced by
    `randomBytes(n).toString('hex')` for the wallet nonces. */
module Hex {
  import opened Wrappers

  newtype byte = x: int | 0 <= x < 256

  /** Number of random bytes drawn for every nonce. */
  const NonceBytes: nat := 32

  predicate IsHexDigit(c: char) {
    '0' <= c <= '9' || 'a' <= c <= 'f'
  }

  /** A well-formed nonce: 32 bytes written as 64 lower-case hex digits. */
  ghost predicate IsNonce(s: string) {
    |s| == 2 * NonceBytes && forall i :: 0 <= i < |s| ==> IsHexDigit(s[i])
  }

  function DigitChar(n: int): (c: char)
    requires 0 <= n < 16
    ensures IsHexDigit(c)
  {
    if n < 10 then ('0' as int + n) as char else ('a' as int + n - 10) as char
  }

  function DigitValue(c: char): (n: int)
    requires IsHexDigit(c)
    ensures 0 <= n < 16
    ensures DigitChar(n) == c
  {
    if c <= '9' then c as int - '0' as int else c as int - 'a' as int + 10
  }

  /** Two digits per byte, high nibble first. */
  function Encode(b: seq<byte>): (s: string)
    ensures |s| == 2 * |b|
    ensures forall i :: 0 <= i < |s| ==> IsHexDigit(s[i])
  {
    if |b| == 0 then ""
    else [DigitChar(b[0] as int / 16), DigitChar(b[0] as int % 16)] + Encode(b[1..])
  }

  /** The inverse of Encode: None on an odd length or a character that is
      not a lower-case hex digit. */
  function Decode(s: string): (r: Option<seq<byte>>)
    ensures r.Some? ==> |s| == 2 * |r.value|
    ensures r.Some? ==> forall i :: 0 <= i < |s| ==> IsHexDigit(s[i])
  {
    if |s| == 0 then Some([])
    else if |s| == 1 || !IsHexDigit(s[0]) || !IsHexDigit(s[1]) then None
    else
      match Decode(s[2..])
      case None => None
      case Some(rest) => Some([(DigitValue(s[0]) * 16 + DigitValue(s[1])) as byte] + rest)
  }

  lemma {:induction false} DecodeEncode(b: seq<byte>)
    ensures Decode(Encode(b)) == Some(b)
  {
    if |b| > 0 {
      var s := Encode(b);
      var hi, lo := b[0] as int / 16, b[0] as int % 16;
      assert s[..2] == [DigitChar(hi), DigitChar(lo)];
      assert s[2..] == Encode(b[1..]);
      DecodeEncode(b[1..]);
      assert DigitValue(DigitChar(hi)) == hi;
      assert DigitValue(DigitChar(lo)) == lo;
      assert [b[0]] + b[1..] == b;
    }
  }

  /** Distinct random draws give distinct nonces. */
  lemma EncodeInjective(a: seq<byte>, b: seq<byte>)
    requires a != b
    ensures Encode(a) != Encode(b)
  {
    DecodeEncode(a);
    DecodeEncode(b);
  }

  /** Every drawn nonce is well formed. */
  lemma EncodeIsNonce(b: seq<byte>)
    requires |b| == NonceBytes
    ensures IsNonce(Encode(b))
  {
  }
}

=== FILE: session.dfy ===
/** The session token signed after a successful login: the account id and
    role, an issue time and an expiry one hour later (the `exp` claim of
    section 4.1.4 of RFC 7519). The signing key and the signature itself
    are not modelled. */
module Session {
  import opened UserModel

  const TokenTtlSeconds: int := 3600

  datatype Token = Token(userId: Id, role: Role, issuedAt: int, expiresAt: int)

  /** A token is honoured from its issue time up to, not including, its expiry. */
  predicate Live(t: Token, at: int) {
    t.issuedAt <= at < t.expiresAt
  }

  /** `jwt.sign` with `expiresIn: '1h'`: the token names the account and
      role, and is honoured for exactly the hour after `now`. */
  function Issue(userId: Id, role: Role, now: int): (t: Token)
    ensures t.userId == userId && t.role == role
    ensures forall at :: Live(t, at) <==> now <= at < now + TokenTtlSeconds
  {
    Token(userId, role, now, now + TokenTtlSeconds)
  }
}

=== FILE: user_model.dfy ===
/** The account record of the user schema and the store of records, with
    the Mongoose-level rules a save enforces: required strings, the role
    enumeration, and the unique indexes on `_id`, `email` and
    `walletAddress`. */
module UserModel {
  import opened Wrappers
  import Hex

  type Id = nat

  /** The `role` enumeration; a record that omits it gets `DefaultRole`. */
  datatype Role = Buyer | Seller

  const DefaultRole: Role := Buyer

  function RoleName(r: Role): string {
    match r
    case Buyer => "buyer"
    case Seller => "seller"
  }

  /** The enum validator of a save: a role string outside the enumeration
      makes the save fail. */
  function ParseRole(s: string): Option<Role> {
    if s == "buyer" then Some(Buyer)
    else if s == "seller" then Some(Seller)
    else None
  }

  lemma ParseRoleIff(s: string, r: Role)
    ensures ParseRole(s) == Some(r) <==> RoleName(r) == s
  {
  }

  /** One stored document.
      `password` is not a path of the schema, which declares only username,
      email, walletAddress, nonce and role; the controller nevertheless
      writes it on password signup and reads it on login, and the model
      carries it the way the controller uses it. */
  datatype Account = Account(
    id: Id,
    username: string,
    email: string,
    password: Option<string>,
    walletAddress: Option<string>,
    nonce: Option<string>,
    role: Role)

  /** Sentinel values of a record created only to hold a wallet nonce. */
  const PlaceholderName: string := "temp"
  const PlaceholderEmail: string := "temp@temp.com"

  predicate IsPlaceholder(a: Account) {
    a.username == PlaceholderName
  }

  type Store = seq<Account>

  /** `findOne`: the index of the first record in insertion order that
      satisfies the filter. */
  function FindFirst(s: Store, q: Account -> bool): (r: Option<nat>)
    ensures r.Some? ==> r.value < |s| && q(s[r.value])
    ensures r.Some? ==> forall j :: 0 <= j < r.value ==> !q(s[j])
    ensures r.None? <==> forall j :: 0 <= j < |s| ==> !q(s[j])
  {
    if |s| == 0 then None
    else if q(s[0]) then Some(0)
    else
      match FindFirst(s[1..], q)
      case None => None
      case Some(k) => Some(k + 1)
  }

  /** The `required: true` strings: Mongoose rejects a missing or empty one. */
  predicate SchemaOk(a: Account) {
    a.username != "" && a.email != ""
  }

  /** Two documents that would collide on the `email` or `walletAddress`
      unique index. An absent wallet address takes part in no collision. */
  predicate Clash(a: Account, b: Account) {
    a.email == b.email || (a.walletAddress.Some? && a.walletAddress == b.walletAddress)
  }

  predicate Conflicts(a: Account, b: Account) {
    a.id == b.id || Clash(a, b)
  }

  ghost predicate Unique(s: Store) {
    forall i, j :: 0 <= i < |s| && 0 <= j < |s| && i != j ==> !Conflicts(s[i], s[j])
  }

  /** What the controllers keep true of wallet records: a record holding an
      address also holds a nonce, and every nonce is a well-formed one. */
  ghost predicate NonceOk(a: Account) {
    && (a.walletAddress.Some? ==> a.nonce.Some?)
    && (a.nonce.Some? ==> Hex.IsNonce(a.nonce.value))
  }

  /** The store invariant. */
  ghost predicate Valid(s: Store) {
    && (forall i :: 0 <= i < |s| ==> SchemaOk(s[i]) && NonceOk(s[i]))
    && Unique(s)
  }

  /** `save()` of a new document. */
  function Insert(s: Store, a: Account): (r: Option<Store>)
    ensures r.Some? <==> SchemaOk(a) && forall j :: 0 <= j < |s| ==> !Conflicts(s[j], a)
    ensures r.Some? ==> r.value == s + [a]
    ensures r.Some? && Valid(s) && NonceOk(a) ==> Valid(r.value)
  {
    if SchemaOk(a) && FindFirst(s, (b: Account) => Conflicts(b, a)).None? then Some(s + [a]) else None
  }

  /** `save()` of the document loaded from position `i`, which keeps its
      `_id`. Every indexed field of the saved document is checked against
      the other documents. */
  function Update(s: Store, i: nat, a: Account): (r: Option<Store>)
    requires i < |s| && a.id == s[i].id
    ensures (forall j :: 0 <= j < |s| && j != i ==> s[j].id != s[i].id) ==>
      (r.Some? <==> SchemaOk(a) && forall j :: 0 <= j < |s| && j != i ==> !Clash(s[j], a))
    ensures r.Some? ==> r.value == s[i := a]
    ensures r.Some? && Valid(s) && NonceOk(a) ==> Valid(r.value)
  {
    if SchemaOk(a) && FindFirst(s, (b: Account) => b.id != a.id && Clash(b, a)).None? then Some(s[i := a])
    else None
  }
}

=== FILE: wrappers.dfy ===
/** The optional-value datatype shared by the whole model. */
module Wrappers {

  /** A value that may be absent: an unset document field, a lookup that
      found nothing, or a primitive that threw. */
  datatype Option<+T> = None | Some(value: T)
}
